=== FILE: README.md ===
# Raspadita Ganadora — a Dafny model of the scratch-card page

This project models the logic of the "Raspadita Ganadora" promotional scratch-card page:

- **Game** and **Session** (`script.js`). A visitor registers a name. The page deals `TOTAL_CARDS` (8) cards, each showing a number drawn from `WINNING_NUMBERS` (1..9). The visitor scratches one card's overlay. The first card whose overlay is more than half transparent wins. Its number is stored in local storage (`raspadita_prize`), and every later visit or reset click shows that prize again instead of a new game.
- **Countdown** (`countdown.js`). The promotion banner splits the time left into days, hours, minutes and seconds. It picks one of four texts and a refresh delay.
- **Progress** (`enhancements.js`). A progress indicator whose value only rises. It shows one of three texts, and a random motivational message can be picked.

Supporting modules:

- **JsText**: JavaScript white space and `String.prototype.trim`.
- **Decimal**: `Number.prototype.toString` and `parseInt`.
- **RandomPick**: `Math.floor(Math.random() * n)`.
- **Canvas**: the RGBA overlay buffer, the erase operation and the reveal threshold.
- **Wrappers**: `Option`.

How the outside world enters the model:

- **Storage** is a record of two optional strings. A key counts as set when JavaScript would find it truthy, i.e. present and non-empty.
- **The canvas** is the `seq<int>` byte buffer that `getImageData` returns. One scratch stroke is "alpha := 0 on a set of pixel indices", which abstracts the radius-25 disk.
- **`Math.random()`** is a sequence of draws in [0, 1), carried by a `Deal` together with the overlay size the layout gives each card.
- **Times** are integer milliseconds, passed in as parameters.
- **The page** is a state machine (`Session.Step`) over five events: page load, registration submit, scratch stroke, reset click, and win-timer firing.

Behaviour the model takes from the code as it stands:

- The registration handler stays attached, so a later submit overwrites the stored name.
- Progress is measured by scanning the whole pixel buffer, not by a resolution-independent area model.
- Persisted storage is not guarded against being unavailable.
- The prize is written 500 ms after the reveal, not at the reveal (see Findings).
- Both the reset button and `initGame` check for a stored prize, so a reset click is exactly `initGame` (`Game.ResetButton`).
- A reset click before registration deals a game with no player name. A win in that game stores the prize, but the script then throws while writing the name into the modal, so no modal opens (`Game.Announce`).

## Model

| member | source | states |
|---|---|---|
| `Game.FreshPage` | script.js:6-10 | The script starts with an active game, no scratched card, no player name, no cards, the registration modal shown, no notice and no pending timer, over the storage it finds. |
| `Game.NewCards` | script.js:209-211 | `createScratchCard` for each number in order: each card carries its number, is unscratched, and has a well-formed, fully opaque overlay of the given size. |
| `Game.EntryPoint` | script.js:139-160 | The visit starts with registration exactly when no user is stored. It replays the outcome exactly when both a user and a prize are stored, showing `parseInt` of the stored prize. It starts a new game exactly when a user but no prize is stored. |
| `Game.CheckExistingUser` | script.js:139-160 | Without a stored user the page is untouched. With one, registration closes and the game takes the stored name. With a stored prize too, no cards are dealt and the previous prize is announced. Otherwise a game of 8 cards starts, active, with none scratched. Storage is never written. |
| `Game.ShowPreviousPrize` | script.js:163-175 | Only the modal changes. For a named player it shows `parseInt` of the stored prize, which is the number n itself whenever the stored text is `n.toString()`. |
| `Game.Announce` | script.js:166 | Opening a modal leaves storage, game state and cards as they were. The notice appears when the player has a name. Without one the page is left exactly as it was, because the modal text reads `gameState.userData.name` and throws. |
| `Game.LoadPage` | script.js:139-160 | No stored user: registration stays shown and nothing is dealt. User and prize: registration closes, no cards are dealt, and the modal shows `parseInt` of the stored prize. User without prize: a game of 8 cards starts, active, with no card scratched. Loading never writes storage. |
| `Game.SubmitRegistration` | script.js:178-192 | A name that is all white space leaves the page unchanged, so the stored user stays unset and the entry decision stays "registration". Otherwise the trimmed name is stored verbatim, registration closes, and a game starts when no prize is stored, the entry decision then being "new game". |
| `Game.InitGame` | script.js:195-212 | With a stored prize, cards and game state are untouched and only the previous prize is announced. Otherwise `scratchedCards = 0`, `isGameActive = true`, and exactly 8 fresh, opaque, unscratched cards with numbers in `WINNING_NUMBERS`. Storage is never written. |
| `Game.ResetButton` | script.js:458-465 | A reset click behaves exactly like `initGame`. |
| `Game.GenerateRandomNumbers` | script.js:215-222 | The loop returns exactly 8 numbers, each in `WINNING_NUMBERS`. The i-th is picked by the i-th draw. |
| `Game.RandomNumbers` | script.js:215-222 | For any draws in [0,1), a new game's numbers are 8 members of `WINNING_NUMBERS`. |
| `Game.DrawNumber` | script.js:218-219 | One draw in [0,1) always selects a member of `WINNING_NUMBERS`. |
| `Game.DrawReachesEveryNumber` | script.js:2 | Every winning number can be dealt: draw k/9 deals the k-th. |
| `Game.Scratch` | script.js:278-301 | A stroke is ignored when the game is inactive or the card is already scratched. Otherwise it erases only that card's overlay, other cards unchanged. The card becomes scratched exactly when strictly more than half of its pixels are transparent. |
| `Game.ShowWinModal` | script.js:350-351 | The win stores `number.toString()` under the prize key. The stored text is non-empty and `parseInt` reads it back as the number. |
| `Game.CheckScratchProgress` | script.js:320-346 | A card not yet scratched whose overlay passes the threshold is marked scratched and the counter rises by 1; otherwise nothing changes. Other cards and the stored user never change. On the first such card the game ends. With the write at reveal, its number is then stored as the prize; with the 500 ms timer, storage is untouched and the number is queued. A later reveal leaves storage and the active flag alone. |
| `Game.TimerCompletesDelayedWin` | script.js:340-344 | With no other win pending, a reveal under the 500 ms timer followed by that timer is the same page as the write at reveal. |
| `Game.WinTimer` | script.js:342-344 | When a pending win timer fires, the oldest queued number is written as the prize. Nothing happens when no timer is pending. |
| `Canvas.CountTransparent` | script.js:322-328 | The loop over bytes 3, 7, 11, … counts exactly the pixels whose alpha byte is below 128, and at most `length/4`. |
| `Canvas.TransparentAmong` | script.js:326-328 | Among the first k pixels, the transparent count is between 0 and k. |
| `Canvas.TransparentReadsOnlyAlpha` | script.js:326-327 | Two buffers with the same alpha bytes have the same transparent count. Colour bytes are never read. |
| `Canvas.Erase` | script.js:293-297 | An erase changes only alpha bytes, and only to 0. A pixel outside the stroke keeps its alpha. Length and well-formedness are kept. |
| `Canvas.EraseClears` | script.js:294-297 | Every erased pixel inside the buffer gets alpha 0, so it is transparent. |
| `Canvas.EraseKeepsOthers` | script.js:294-297 | A pixel the stroke does not cover keeps its alpha byte. |
| `Canvas.EraseNeverHides` | script.js:294-297 | Erasing never lowers the transparent count. |
| `Canvas.TransparentMonotone` | script.js:326-328 | If every pixel transparent in one buffer is transparent in another, the second has at least as many. |
| `Canvas.EraseIdempotent` | script.js:294-297 | Erasing the same pixels twice is the same as once. |
| `Canvas.EraseUnion` | script.js:294-297 | Two strokes are one stroke over the union of their pixels. |
| `Canvas.Covered` | script.js:272-273 | A freshly filled overlay is well formed, of the given size, with no transparent pixel. |
| `Canvas.ScratchedEnough` | script.js:330-332 | A reveal needs a non-empty buffer with at least one transparent pixel. A zero-sized overlay makes `getImageData` throw at script.js:322, so nothing changes; the model's test is false for an empty buffer, which gives the same page. |
| `Canvas.ScratchedEnoughIff` | script.js:330-332 | On whole-pixel buffers, `(t / (len/4)) * 100 > 50` holds exactly when `2*t > len/4`. |
| `Canvas.PercentAboveHalf` | script.js:330-332 | For a positive pixel count n, `(t/n)*100 > 50` is `2t > n`. |
| `Canvas.ExactHalfIsNotEnough` | script.js:330-332 | Exactly half transparent leaves the card unscratched. |
| `Session.Step` | script.js:178-192 | Each event runs its handler: a reload keeps storage and drops the old page's pending timers (script.js:483-485). Only a registration writes the stored user. A reset click (script.js:458-465) never writes storage. A stroke (script.js:278-301) keeps the number of cards and the registration state. A win timer (script.js:342-344) leaves cards and game state alone, and does nothing with no timer pending. |
| `Session.StepInv` | script.js:139-212 | Every event keeps the invariant, with the prize written at the reveal. The invariant: the counter equals the number of scratched cards, which is at most 1. The game is active exactly while it is 0. A scratched card's number is the stored prize. With a prize stored, no playable game exists. |
| `Session.ScratchInv` | script.js:278-345 | A scratch stroke keeps that invariant. |
| `Session.NewGameInv` | script.js:195-212 | `initGame` keeps that invariant. |
| `Session.AtMostOneWin` | script.js:332-345 | From any page satisfying the invariant, any run of events wins at most once, and never once a prize is stored. |
| `Session.OneWinPerPage` | script.js:332-351 | Within one page, whatever storage holds when the script starts and whatever the events (reloads, registrations, resets, strokes), at most one card is ever won. None is won if a prize is already stored. |
| `Session.AtMostOneScratched` | script.js:337-341 | On a page satisfying the invariant, two scratched cards are the same card. |
| `Session.RunInv` | script.js:139-212 | Any run of events from a page satisfying the invariant ends on one satisfying it. |
| `Session.ReachableAtMostOneScratched` | script.js:332-341 | On any page reached from the start of the script, whatever storage holds and whatever the events, two scratched cards are the same card. |
| `Session.WinStoresPrize` | script.js:340-351 | A winning step starts with no prize stored and ends with one stored. |
| `Session.StoredPrizeIsFinal` | script.js:148-151 | Once stored, the prize never changes. |
| `Session.WinEndsGame` | script.js:279-280 | After a winning stroke the game is inactive, and every later stroke on any card is ignored. |
| `Session.ScratchIdempotent` | script.js:278-301 | Repeating a stroke with the same erased pixels changes nothing more. |
| `Session.ScratchNeverHides` | script.js:293-300 | A stroke never lowers any card's transparent count. |
| `Session.PrizeRoundTrip` | script.js:351 | The won number is stored as text. For a registered player, the next load's entry decision is "show outcome" with that same number, and no cards are dealt. A reset click deals nothing either, and for a named player its modal shows that same number. |
| `Session.ScratchedCountUpdate` | script.js:333-337 | Marking one card changes the scratched count by exactly the change of that card's flag. |
| `Session.DelayedWriteWinsTwice` | script.js:342-344 | As written, the prize is stored only when the 500 ms timer fires. Load, reveal, reset click, reveal, then both timers: the run wins twice, and the stored prize ends as 5 although the first win was 1. |
| `Decimal.ParseIntOfIntToString` | script.js:150 | `parseInt(x.toString()) == x` for every integer x. |
| `Decimal.ParseInt` | script.js:150 | A blank or all-white-space string gives NaN. A string starting with a digit 1-9 gives a number, and it is non-negative. |
| `Decimal.IntToString` | script.js:351 | The text is non-empty, starts with '-' exactly for negative numbers, and every other character is a decimal digit. |
| `Decimal.NatToString` | script.js:351 | Decimal text of a number: non-empty, all digits, and no leading zero. |
| `Decimal.ValueOfNatToString` | script.js:150 | The digits written by `toString` read back as the number. |
| `Decimal.DigitPrefix` | script.js:150 | `parseInt` reads the longest run of digits: all counted characters are digits and the next one is not. |
| `JsText.Trim` | script.js:182 | The trimmed name is the slice of the input after its leading white space. What follows it is white space, and it neither starts nor ends with white space. |
| `JsText.TrimEmptyIff` | script.js:182-184 | A name trims to empty exactly when it is all white space. |
| `JsText.TrimIdempotent` | script.js:182 | Trimming twice is trimming once. |
| `JsText.LeadingSpace` | script.js:182 | The leading white space run is maximal: everything before the count is white space, and the next character is not. |
| `RandomPick.Pick` | script.js:218 | `floor(r * n)` for a draw r in [0,1) is a valid index k with `k <= r*n < k+1`. |
| `RandomPick.PickIff` | enhancements.js:61 | A draw picks index k exactly when it lies in [k/n, (k+1)/n). |
| `RandomPick.PickCovers` | script.js:218 | Every index is picked by some draw. |
| `Countdown.UpdateCountdown` | countdown.js:4-44 | Missing banner elements: nothing happens. Time left ≤ 0: the expired banner, with no further refresh. Otherwise the banner is the form `Countdown.Format` picks for the split of the time left, so `Countdown.FormatByRange` applies. Its components, the omitted ones being 0, are in range and account for the time left to within one second. The delay is 100 ms exactly when the time left modulo an hour is under a minute, and 1000 ms otherwise. |
| `Countdown.Split` | countdown.js:21-24 | `days*86400000 + hours*3600000 + minutes*60000 + seconds*1000 + timeLeft % 1000 == timeLeft`, with `days >= 0`, `hours < 24`, `minutes < 60` and `seconds < 60`. |
| `Countdown.SplitUnique` | countdown.js:21-24 | Any in-range components that add up to the time left are the ones the split computes. |
| `Countdown.Format` | countdown.js:29-37 | The full d/h/m/s form is chosen exactly when days are left. No component is lost: for non-negative days, hours and minutes, the components the banner shows, with the omitted ones read as 0, are the input. |
| `Countdown.RefreshInterval` | countdown.js:42 | The delay is 100 or 1000 ms, 100 exactly when the minutes component is 0. |
| `Countdown.FormatByRange` | countdown.js:29-37 | The d/h/m/s form appears exactly when a day or more is left. The h/m/s form exactly for an hour up to a day. "Últimos minutos" exactly for a minute up to an hour. "Últimos segundos" below a minute. |
| `Countdown.RefreshIntervalByTime` | countdown.js:42 | The delay is 100 ms exactly when the minutes component is 0, i.e. in the first minute of every remaining hour, days and hours notwithstanding. |
| `Countdown.FastRefreshOutsideLastMinute` | countdown.js:41-42 | With 1 h 0 min 30 s left, well outside the last minute, the delay is already 100 ms. |
| `Countdown.LastMinuteRefreshByTime` | countdown.js:41 | With the rule the comment describes, the delay is 100 ms exactly when less than a minute is left. |
| `Countdown.DivModUnique` | countdown.js:21-24 | A quotient and remainder in range are the floor division and `%` the page uses. |
| `Progress.UpdateProgress` | enhancements.js:44-57 | `currentProgress` never decreases. The state changes exactly when the fill element exists and the percentage exceeds the current value. After an accepted update, value and width equal the percentage and the text follows its band. |
| `Progress.UpdateAllIsMaximum` | enhancements.js:44-47 | After any sequence of updates the value is the maximum of the start value and all offered percentages. Without the fill element nothing changes. |
| `Progress.UpdateIdempotent` | enhancements.js:45-46 | Repeating an update changes nothing. |
| `Progress.MessageBand` | enhancements.js:49-55 | The first text below 30, the second in [30, 50), the third from 50. |
| `Progress.MessageBandMonotone` | enhancements.js:49-55 | A higher percentage never shows an earlier text. |
| `Progress.InitializeUi` | enhancements.js:65-73 | Without the indicator element, only the value is reset to 0. With it and with the fill and text elements, the width, the first text and the value are all reset. With the indicator but no fill element, the call throws and nothing changes. With the fill but no text element, only the width is reset before the throw, so the old value stays. |
| `Progress.ResetReaccepts` | enhancements.js:65-72 | After a reset that completes, any positive percentage is accepted again. After one that throws, no percentage up to the old value is accepted. |
| `Progress.RandomMessage` | enhancements.js:60-62 | A draw in [0,1) always yields one of the 7 listed messages. |
| `Progress.RandomMessageCovers` | enhancements.js:11-19 | Every one of the 7 messages can be drawn. |

## Left out

- Web Audio synthesis, the scratch and win sounds and the music loop (script.js:38-136). These are calls into the browser's audio API with no state the game reads back.
- Confetti, coins, stars, rays, golden dust, the celebration animation and the injected shake style (script.js:373-440, script.js:472-480, enhancements.js:22-41). These are visual effects only.
- Canvas setup, the gradient, device-pixel-ratio scaling and the geometry of `arc` (script.js:251-274, script.js:293-297). A stroke is given directly as the set of pixels it clears. The gradient's colour bytes are left at 0, which `Canvas.TransparentReadsOnlyAlpha` shows cannot matter. Before the zero-delay setup timer runs, the canvas has the browser's default size and is transparent; that window is not modelled.
- Mouse and touch wiring and the `isScratching` flag (script.js:303-317). The model takes the `scratch` calls directly.
- Floating point. Reveal percentages, draws and progress values are exact reals. An empty buffer, which in the page makes `getImageData` throw before the test, is given a false test instead. `Number.prototype.toString` is modelled for integral values without exponent notation, and `parseInt` without the precision loss of very long digit strings.
- Timers other than the win timer. `showPreviousPrize` opens its modal 500 ms later, and the model opens it at once. The countdown's `setTimeout` is represented by the delay it would be given.
- `Date` parsing and time zones (countdown.js:2-6). `now` and the end date are integer milliseconds.
- The WhatsApp share link (script.js:443-450). It is a thin wrapper over `encodeURIComponent` and `window.open`.
- Closing the modal, modal titles and texts, `hideUIElements`, the preview text and `console.log`. These are presentation only.
- Local storage being unavailable, and a missing form field. The code does not handle either; both would throw.
- Several tabs of the page open at once over the same local storage. Each tab keeps its own game state and reads the prize key only at load, in `initGame` and on a reset click (script.js:141, script.js:196, script.js:459). So two tabs opened before any win can each deal a game and each win. `Session.OneWinPerPage` is about one page.
- A stroke on a card index that is not on the grid is a no-op. In the page each handler is bound to its own card, so such a stroke cannot arise.
- Game.GenerateRandomNumbers: states that every number is a winning number and that every winning number is reachable, not that `Math.random` makes the choice uniform, because the distribution of the draws is outside the model.
- Progress.UpdateProgress: assumes the text element exists whenever the fill element does. The code would throw otherwise.

## Findings

| source | as written | input that shows it | evidently intended | confidence | as-written member | corrected member |
|---|---|---|---|---|---|---|
| script.js:342-344 | The prize is stored by `showWinModal`, 500 ms after the reveal, and the reset button stays live meanwhile. | A registered player reveals a card showing 1, clicks reset within 500 ms, and `initGame` finds no prize and deals again. They reveal a card showing 5. Two wins occur, and the stored prize ends as 5. | The prize is stored at the reveal, so a page sees one win and the stored prize is the one first shown. | medium, not executed | `Session.DelayedWriteWinsTwice` | `Session.OneWinPerPage` |
| countdown.js:41-42 | `minutes === 0 ? 100 : 1000` | With 3 630 000 ms left (1 h 0 min 30 s), the banner refreshes every 100 ms. | 100 ms only in the last minute, as the comment says: time left under 60 000 ms. | low, not executed | `Countdown.FastRefreshOutsideLastMinute` | `Countdown.LastMinuteRefreshByTime` |

The rest of the page model (`Session.StepInv`, `Session.AtMostOneWin`, `Session.PrizeRoundTrip`) uses the corrected write at reveal, `Game.WritePolicy.AtReveal`. The as-written timer is `Game.WritePolicy.AfterDelay` together with `Game.WinTimer`. `Countdown.UpdateCountdown` keeps the code's refresh rule, because the rule changes only how often the banner is redrawn, never what it shows.

=== FILE: canvas.dfy ===
/**
 * A card's scratch overlay as the RGBA byte buffer `getImageData` returns:
 * four bytes per pixel, the alpha byte at offset 3 of each group. Scratching
 * erases (alpha := 0) a set of pixels; the reveal test counts the pixels
 * whose alpha is below 128.
 */
module Canvas {

  /** A well-formed buffer: whole pixels of bytes. */
  predicate WellFormed(c: seq<int>) {
    && |c| % 4 == 0
    && forall i | 0 <= i < |c| :: 0 <= c[i] <= 255
  }

  function Pixels(c: seq<int>): nat {
    |c| / 4
  }

  /** Alpha byte of pixel `p`. */
  function Alpha(c: seq<int>, p: nat): int
    requires p < Pixels(c)
  {
    c[4 * p + 3]
  }

  predicate IsTransparent(c: seq<int>, p: nat)
    requires p < Pixels(c)
  {
    Alpha(c, p) < 128
  }

  /** Number of transparent pixels among the first `k`. */
  function TransparentAmong(c: seq<int>, k: nat): (t: nat)
    requires k <= Pixels(c)
    ensures t <= k
  {
    if k == 0 then 0
    else TransparentAmong(c, k - 1) + (if IsTransparent(c, k - 1) then 1 else 0)
  }

  /** Number of transparent pixels of the whole buffer. */
  function Transparent(c: seq<int>): nat {
    TransparentAmong(c, Pixels(c))
  }

  /** The counting loop of the reveal check: visit bytes 3, 7, 11, ... and
      count those below 128. */
  method CountTransparent(pixels: seq<int>) returns (transparentPixels: nat)
    ensures transparentPixels == Transparent(pixels)
    ensures transparentPixels <= Pixels(pixels)
  {
    transparentPixels := 0;
    var i := 3;
    while i < |pixels|
      invariant i % 4 == 3 && 3 <= i
      invariant (i - 3) / 4 <= Pixels(pixels)
      invariant transparentPixels == TransparentAmong(pixels, (i - 3) / 4)
    {
      if pixels[i] < 128 {
        transparentPixels := transparentPixels + 1;
      }
      i := i + 4;
    }
  }

  /** A buffer fully covered by the overlay: every pixel opaque. The colour
      bytes of the gradient are not modelled (left at 0): the count never
      reads them, see `TransparentReadsOnlyAlpha`. */
  function Covered(pixels: nat): (c: seq<int>)
    ensures WellFormed(c) && Pixels(c) == pixels
    ensures Transparent(c) == 0
  {
    var c := seq(4 * pixels, i => if i % 4 == 3 then 255 else 0);
    NoneTransparent(c, pixels);
    c
  }

  lemma {:induction false} NoneTransparent(c: seq<int>, k: nat)
    requires k <= Pixels(c)
    requires forall p | 0 <= p < k :: !IsTransparent(c, p)
    ensures TransparentAmong(c, k) == 0
  {
    if k > 0 {
      NoneTransparent(c, k - 1);
    }
  }

  /** One `destination-out` fill: the alpha byte of every pixel in `erased`
      becomes 0 (indices past the buffer are clipped). */
  function Erase(c: seq<int>, erased: set<nat>): (r: seq<int>)
    ensures |r| == |c|
    ensures forall i | 0 <= i < |c| :: r[i] == c[i] || r[i] == 0
    ensures forall i | 0 <= i < |c| && i % 4 != 3 :: r[i] == c[i]
    ensures WellFormed(c) ==> WellFormed(r)
    ensures forall p | 0 <= p < Pixels(c) && p !in erased :: Alpha(r, p) == Alpha(c, p)
  {
    seq(|c|, i requires 0 <= i < |c| => if i % 4 == 3 && i / 4 in erased then 0 else c[i])
  }

  /** Every erased pixel inside the buffer ends up fully transparent. */
  lemma EraseClears(c: seq<int>, erased: set<nat>, p: nat)
    requires p in erased && p < Pixels(c)
    ensures Alpha(Erase(c, erased), p) == 0
    ensures IsTransparent(Erase(c, erased), p)
  {
    assert (4 * p + 3) / 4 == p;
  }

  /** A pixel the stroke does not touch keeps its alpha. */
  lemma EraseKeepsOthers(c: seq<int>, erased: set<nat>, p: nat)
    requires p < Pixels(c) && p !in erased
    ensures Alpha(Erase(c, erased), p) == Alpha(c, p)
  {
    assert (4 * p + 3) / 4 == p;
  }

  /** Erasing the same pixels again changes nothing. */
  lemma EraseIdempotent(c: seq<int>, erased: set<nat>)
    ensures Erase(Erase(c, erased), erased) == Erase(c, erased)
  {
  }

  /** Two erases in a row are one erase of the union. */
  lemma EraseUnion(c: seq<int>, a: set<nat>, b: set<nat>)
    ensures Erase(Erase(c, a), b) == Erase(c, a + b)
  {
  }

  /** The count depends only on the alpha bytes. */
  lemma {:induction false} TransparentReadsOnlyAlpha(c: seq<int>, d: seq<int>, k: nat)
    requires Pixels(c) == Pixels(d) && k <= Pixels(c)
    requires forall p | 0 <= p < Pixels(c) :: Alpha(c, p) == Alpha(d, p)
    ensures TransparentAmong(c, k) == TransparentAmong(d, k)
  {
    if k > 0 {
      TransparentReadsOnlyAlpha(c, d, k - 1);
    }
  }

  /** If every pixel transparent in `c` is transparent in `d`, `d` has at
      least as many transparent pixels. */
  lemma {:induction false} TransparentMonotone(c: seq<int>, d: seq<int>, k: nat)
    requires Pixels(c) == Pixels(d) && k <= Pixels(c)
    requires forall p | 0 <= p < Pixels(c) :: IsTransparent(c, p) ==> IsTransparent(d, p)
    ensures TransparentAmong(c, k) <= TransparentAmong(d, k)
  {
    if k > 0 {
      TransparentMonotone(c, d, k - 1);
    }
  }

  /** Erasing can only raise the transparent count. */
  lemma EraseNeverHides(c: seq<int>, erased: set<nat>)
    ensures Transparent(c) <= Transparent(Erase(c, erased))
  {
    var d := Erase(c, erased);
    forall p | 0 <= p < Pixels(c) && IsTransparent(c, p)
      ensures IsTransparent(d, p)
    {
      assert d[4 * p + 3] == c[4 * p + 3] || d[4 * p + 3] == 0;
    }
    TransparentMonotone(c, d, Pixels(c));
  }

  /** The reveal test: `(transparent / (length / 4)) * 100 > 50`, computed
      on reals. The page never reaches it with an empty buffer: reading a
      zero-sized overlay back throws first, and nothing changes. The test is
      false for an empty buffer, which leaves the page unchanged too. */
  function ScratchedEnough(c: seq<int>): (b: bool)
    ensures b ==> |c| > 0 && Transparent(c) > 0
  {
    |c| > 0 && (Transparent(c) as real / (|c| as real / 4.0)) * 100.0 > 50.0
  }

  /** On a buffer of whole pixels the percentage test is the integer test
      "strictly more than half of the pixels are transparent". */
  lemma ScratchedEnoughIff(c: seq<int>)
    ensures |c| % 4 == 0 ==> (ScratchedEnough(c) <==> 2 * Transparent(c) > Pixels(c))
  {
    if |c| > 0 && |c| % 4 == 0 {
      assert |c| as real / 4.0 == Pixels(c) as real;
      PercentAboveHalf(Transparent(c) as real, Pixels(c) as real);
    }
  }

  lemma PercentAboveHalf(t: real, n: real)
    requires n > 0.0
    ensures (t / n) * 100.0 > 50.0 <==> 2.0 * t > n
  {
    var q := t / n;
    assert q * n == t;
    if 2.0 * q > 1.0 {
      assert 2.0 * q * n > 1.0 * n;
    } else {
      assert 2.0 * q * n <= 1.0 * n;
    }
  }

  /** Exactly half transparent is not enough. */
  lemma ExactHalfIsNotEnough(c: seq<int>)
    requires |c| % 4 == 0 && 2 * Transparent(c) == Pixels(c)
    ensures !ScratchedEnough(c)
  {
    ScratchedEnoughIff(c);
  }
}

=== FILE: countdown.dfy ===
/**
 * The promotion countdown banner: the time left until the end date, in
 * whole milliseconds, split into days, hours, minutes and seconds; the
 * banner text chosen from it; and the delay before the next refresh.
 */
module Countdown {

  const SECOND: int := 1000
  const MINUTE: int := 1000 * 60
  const HOUR: int := 1000 * 60 * 60
  const DAY: int := 1000 * 60 * 60 * 24

  datatype Parts = Parts(days: int, hours: int, minutes: int, seconds: int)

  /** The milliseconds a set of components stands for. */
  function Millis(p: Parts): int {
    p.days * DAY + p.hours * HOUR + p.minutes * MINUTE + p.seconds * SECOND
  }

  predicate InRange(p: Parts) {
    && p.days >= 0
    && 0 <= p.hours < 24
    && 0 <= p.minutes < 60
    && 0 <= p.seconds < 60
  }

  /** The four banner forms: "Termina en: Xd Xh Xm Xs", "Termina en: Xh Xm
      Xs", "¡ÚLTIMOS MINUTOS! Xm Xs" and "¡ÚLTIMOS SEGUNDOS! Xs". */
  datatype Display =
    | Full(days: int, hours: int, minutes: int, seconds: int)
    | HoursLeft(hours: int, minutes: int, seconds: int)
    | LastMinutes(minutes: int, seconds: int)
    | LastSeconds(seconds: int)

  /** One run of the update: nothing (the banner elements are missing), the
      expired banner (no further run), or a banner and the delay in ms before
      the next run. */
  datatype Tick = Skipped | Expired | Running(display: Display, interval: int)

  /** The time components, each `Math.floor` of a quotient of a remainder.
      The time left is positive here, so flooring is Dafny's division. */
  function Split(timeLeft: int): (p: Parts)
    requires timeLeft > 0
    ensures InRange(p)
    ensures Millis(p) + timeLeft % SECOND == timeLeft
  {
    var p := Parts(timeLeft / DAY, (timeLeft % DAY) / HOUR, (timeLeft % HOUR) / MINUTE, (timeLeft % MINUTE) / SECOND);
    SplitSum(timeLeft);
    p
  }

  lemma SplitSum(t: int)
    requires t > 0
    ensures (t / DAY) * DAY + ((t % DAY) / HOUR) * HOUR + ((t % HOUR) / MINUTE) * MINUTE
            + ((t % MINUTE) / SECOND) * SECOND + t % SECOND == t
  {
    var d, rd := t / DAY, t % DAY;
    var h, rh := rd / HOUR, rd % HOUR;
    assert t == d * DAY + h * HOUR + rh;
    assert rh == t % HOUR by { ModOfMultiple(t, d * 24 + h, HOUR, rh); }
    var m, rm := rh / MINUTE, rh % MINUTE;
    assert rm == t % MINUTE by { ModOfMultiple(t, (d * 24 + h) * 60 + m, MINUTE, rm); }
    var s, rs := rm / SECOND, rm % SECOND;
    assert rs == t % SECOND by { ModOfMultiple(t, ((d * 24 + h) * 60 + m) * 60 + s, SECOND, rs); }
  }

  /** `t == q * b + r` with `0 <= r < b` fixes the quotient and remainder. */
  lemma DivModUnique(t: int, q: int, b: int, r: int)
    requires b > 0 && 0 <= r < b && t == q * b + r
    ensures t / b == q && t % b == r
  {
    var q', r' := t / b, t % b;
    assert (q' - q) * b == r - r' by {
      assert t == q' * b + r';
      assert q' * b - q * b == (q' - q) * b;
    }
    if q' > q {
      MulAtLeast(q' - q, b);
    } else if q' < q {
      MulAtLeast(q - q', b);
    }
  }

  lemma MulAtLeast(k: int, b: int)
    requires k >= 1 && b > 0
    ensures k * b >= b
  {
    assert k * b == (k - 1) * b + b;
  }

  lemma ModOfMultiple(t: int, q: int, b: int, r: int)
    requires b > 0 && 0 <= r < b && t == q * b + r
    ensures t % b == r
  {
    DivModUnique(t, q, b, r);
  }

  /** The split is the only in-range way to write the time left as days,
      hours, minutes, seconds and a sub-second rest. */
  lemma SplitUnique(t: int, p: Parts, rest: int)
    requires t > 0 && InRange(p) && 0 <= rest < SECOND && Millis(p) + rest == t
    ensures Split(t) == p && t % SECOND == rest
  {
    var q := ((p.days * 24 + p.hours) * 60 + p.minutes) * 60 + p.seconds;
    DivModUnique(t, q, SECOND, rest);
    var rm := p.seconds * SECOND + rest;
    DivModUnique(t, (p.days * 24 + p.hours) * 60 + p.minutes, MINUTE, rm);
    DivModUnique(rm, p.seconds, SECOND, rest);
    var rh := p.minutes * MINUTE + rm;
    DivModUnique(t, p.days * 24 + p.hours, HOUR, rh);
    DivModUnique(rh, p.minutes, MINUTE, rm);
    var rd := p.hours * HOUR + rh;
    DivModUnique(t, p.days, DAY, rd);
    DivModUnique(rd, p.hours, HOUR, rh);
  }

  /** The banner form: the largest non-zero unit picks it. */
  function Format(p: Parts): (d: Display)
    ensures d.Full? <==> p.days > 0
    ensures p.days >= 0 && p.hours >= 0 && p.minutes >= 0 ==> Shown(d) == p
  {
    if p.days > 0 then Full(p.days, p.hours, p.minutes, p.seconds)
    else if p.hours > 0 then HoursLeft(p.hours, p.minutes, p.seconds)
    else if p.minutes > 0 then LastMinutes(p.minutes, p.seconds)
    else LastSeconds(p.seconds)
  }

  /** The components a banner shows, the omitted leading ones as zero. */
  function Shown(d: Display): Parts {
    match d
    case Full(dd, h, m, s) => Parts(dd, h, m, s)
    case HoursLeft(h, m, s) => Parts(0, h, m, s)
    case LastMinutes(m, s) => Parts(0, 0, m, s)
    case LastSeconds(s) => Parts(0, 0, 0, s)
  }

  /** Which banner form shows depends only on which range the time left is
      in: a day or more, an hour or more, a minute or more, less. */
  lemma FormatByRange(t: int)
    requires t > 0
    ensures Format(Split(t)).Full? <==> t >= DAY
    ensures Format(Split(t)).HoursLeft? <==> HOUR <= t < DAY
    ensures Format(Split(t)).LastMinutes? <==> MINUTE <= t < HOUR
    ensures Format(Split(t)).LastSeconds? <==> t < MINUTE
  {
  }

  /** The refresh delay as the page computes it: 100 ms when the minutes
      component is 0, else 1000 ms, whatever the days and hours. */
  function RefreshInterval(p: Parts): (ms: int)
    ensures ms == 100 || ms == 1000
    ensures ms == 100 <==> p.minutes == 0
  {
    if p.minutes == 0 then 100 else 1000
  }

  /** The fast refresh happens in the first minute of every hour left, not
      only in the last minute. */
  lemma RefreshIntervalByTime(t: int)
    requires t > 0
    ensures RefreshInterval(Split(t)) == 100 <==> t % HOUR < MINUTE
  {
  }

  /** One hour and thirty seconds before the end the page already refreshes
      every 100 ms. */
  lemma FastRefreshOutsideLastMinute()
    ensures RefreshInterval(Split(HOUR + 30 * SECOND)) == 100
  {
    SplitUnique(HOUR + 30 * SECOND, Parts(0, 1, 0, 30), 0);
  }

  /** The refresh delay the comment above it describes: 100 ms in the last
      minute only. */
  function LastMinuteRefreshInterval(p: Parts): int {
    if p.days == 0 && p.hours == 0 && p.minutes == 0 then 100 else 1000
  }

  lemma LastMinuteRefreshByTime(t: int)
    requires t > 0
    ensures LastMinuteRefreshInterval(Split(t)) == 100 <==> t < MINUTE
  {
  }

  /** `updateCountdown` with the current time and the end date in ms. */
  function UpdateCountdown(now: int, endDate: int, elementsPresent: bool): (r: Tick)
    ensures r.Skipped? <==> !elementsPresent
    ensures r.Expired? <==> elementsPresent && endDate <= now
    ensures r.Running? ==> r.display == Format(Split(endDate - now))
    ensures r.Running? ==>
      && InRange(Shown(r.display))
      && Millis(Shown(r.display)) <= endDate - now < Millis(Shown(r.display)) + SECOND
      && (r.interval == 100 <==> (endDate - now) % HOUR < MINUTE)
      && (r.interval != 100 ==> r.interval == 1000)
  {
    var timeLeft := endDate - now;
    if !elementsPresent then Skipped
    else if timeLeft <= 0 then Expired
    else
      var p := Split(timeLeft);
      RefreshIntervalByTime(timeLeft);
      Running(Format(p), RefreshInterval(p))
  }
}

=== FILE: decimal.dfy ===
/**
 * Integer <-> text conversions the game uses to persist its prize:
 * `Number.prototype.toString()` on an integral number and the global
 * `parseInt(string)` with no radix argument.
 */
module Decimal {
  import opened Wrappers
  import JsText

  predicate IsDecimalDigit(c: char) {
    '0' <= c <= '9'
  }

  function DigitChar(d: nat): (c: char)
    requires d < 10
    ensures IsDecimalDigit(c)
  {
    (('0' as int) + d) as char
  }

  /** Decimal representation of a non-negative integer, most significant
      digit first, without leading zeros. */
  function NatToString(n: nat): (r: string)
    decreases n
    ensures |r| >= 1
    ensures forall k | 0 <= k < |r| :: IsDecimalDigit(r[k])
    ensures r[0] == '0' ==> n == 0 && |r| == 1
  {
    if n < 10 then [DigitChar(n)]
    else NatToString(n / 10) + [DigitChar(n % 10)]
  }

  /** `x.toString()` for an integral Number: an optional minus sign and the
      decimal digits of its magnitude. */
  function IntToString(x: int): (r: string)
    ensures r != []
    ensures r[0] == '-' <==> x < 0
    ensures forall k | (if x < 0 then 1 else 0) <= k < |r| :: IsDecimalDigit(r[k])
  {
    if x < 0 then "-" + NatToString(-x) else NatToString(x)
  }

  /** The value of character `c` as a digit in `radix` (2..36): '0'..'9',
      then the letters in either case. */
  function DigitValue(c: char, radix: nat): Option<nat>
  {
    var d :=
      if '0' <= c <= '9' then c as int - '0' as int
      else if 'a' <= c <= 'z' then c as int - 'a' as int + 10
      else if 'A' <= c <= 'Z' then c as int - 'A' as int + 10
      else 36;
    if d < radix then Some(d) else None
  }

  /** Number of leading characters of `s` that are digits in `radix`. */
  function DigitPrefix(s: string, radix: nat): (n: nat)
    ensures n <= |s|
    ensures forall k | 0 <= k < n :: DigitValue(s[k], radix).Some?
    ensures n < |s| ==> DigitValue(s[n], radix).None?
  {
    if |s| == 0 || DigitValue(s[0], radix).None? then 0
    else 1 + DigitPrefix(s[1..], radix)
  }

  /** Positional value of a string of digits, most significant first
      (only ever applied to strings of digits). */
  function Value(ds: string, radix: nat): nat {
    if ds == [] then 0
    else Value(ds[..|ds| - 1], radix) * radix + ValueOr(DigitValue(ds[|ds| - 1], radix), 0)
  }

  /** The global `parseInt(s)`: skip leading white space, take an optional
      sign, a "0x"/"0X" prefix switches to radix 16, then read the longest
      run of digits. No digit at all gives NaN, modelled as `None`. */
  function ParseInt(s: string): (r: Option<int>)
    ensures JsText.AllWhiteSpace(s) ==> r == None
    ensures |s| > 0 && '1' <= s[0] <= '9' ==> r.Some? && r.value >= 0
  {
    var t := s[JsText.LeadingSpace(s)..];
    var sign := if |t| > 0 && t[0] == '-' then -1 else 1;
    var u := if |t| > 0 && (t[0] == '-' || t[0] == '+') then t[1..] else t;
    var hex := |u| >= 2 && u[0] == '0' && (u[1] == 'x' || u[1] == 'X');
    var radix := if hex then 16 else 10;
    var v := if hex then u[2..] else u;
    var n := DigitPrefix(v, radix);
    if n == 0 then None else Some(sign * Value(v[..n], radix))
  }

  /** Reading back the digits `NatToString` writes gives the number. */
  lemma {:induction false} ValueOfNatToString(n: nat)
    ensures forall k | 0 <= k < |NatToString(n)| :: DigitValue(NatToString(n)[k], 10).Some?
    ensures Value(NatToString(n), 10) == n
    decreases n
  {
    var r := NatToString(n);
    if n >= 10 {
      ValueOfNatToString(n / 10);
      assert r[..|r| - 1] == NatToString(n / 10);
    }
  }

  /** How `parseInt` reads the digits of a non-negative number: no white
      space or sign in front, no "0x" prefix, and every character a digit
      whose positional value is the number. */
  lemma ParseShapeOfNatToString(n: nat)
    ensures !JsText.IsWhiteSpace(NatToString(n)[0])
    ensures NatToString(n)[0] != '-' && NatToString(n)[0] != '+'
    ensures !(|NatToString(n)| >= 2 && NatToString(n)[0] == '0')
    ensures DigitPrefix(NatToString(n), 10) == |NatToString(n)|
    ensures Value(NatToString(n)[..|NatToString(n)|], 10) == n
  {
    ValueOfNatToString(n);
    var d := NatToString(n);
    assert d[..|d|] == d;
  }

  /** Round trip of the stored prize: `parseInt(x.toString()) == x` for
      every integer `x`. */
  lemma ParseIntOfIntToString(x: int)
    ensures ParseInt(IntToString(x)) == Some(x)
  {
    var m := if x < 0 then -x else x;
    var digits := NatToString(m);
    ParseShapeOfNatToString(m);
    var s := IntToString(x);
    assert JsText.LeadingSpace(s) == 0;
    assert s[0..] == s;
    if x < 0 {
      assert s[1..] == digits;
    } else {
      assert s == digits;
    }
  }

  /** The round trip for every integer at once. */
  lemma ParseIntInvertsIntToString()
    ensures forall x :: ParseInt(IntToString(x)) == Some(x)
  {
    forall x {
      ParseIntOfIntToString(x);
    }
  }
}

=== FILE: game.dfy ===
/**
 * The scratch-card page controller: what the page keeps in local storage,
 * the in-memory game state, the cards on the grid, and the operations the
 * page runs on load, on registration, on a scratch stroke and on the reset
 * button.
 */
module Game {
  import opened Wrappers
  import JsText
  import Decimal
  import RandomPick
  import Canvas

  /** Every number a card can show; every one of them wins. */
  const WINNING_NUMBERS: seq<int> := [1, 2, 3, 4, 5, 6, 7, 8, 9]
  const TOTAL_CARDS: nat := 8

  /** The two local storage keys `raspadita_user` and `raspadita_prize`;
      `None` is a key that was never set. */
  datatype Storage = Storage(user: Option<string>, prize: Option<string>)

  /** JavaScript truthiness of a `getItem` result: present and non-empty. */
  predicate Stored(item: Option<string>) {
    item.Some? && item.value != []
  }

  /** One card: its hidden number, its overlay buffer, and whether it has
      been marked scratched. */
  datatype Card = Card(number: int, surface: seq<int>, scratched: bool)

  /** The page-wide `gameState` object. */
  datatype GameState = GameState(scratchedCards: int, isGameActive: bool, userName: Option<string>)

  /** The prize modal: a returning player's earlier prize (as `parseInt`
      read it back, `None` for NaN) or the congratulation for a fresh win. */
  datatype Notice = PreviousPrize(shown: Option<int>) | Congratulations(number: int)

  /** How the prize of a win reaches storage. `AtReveal`: in the same step
      as the reveal. `AfterDelay`: the reveal only queues the win; the write
      and the modal happen when the 500 ms timer fires. */
  datatype WritePolicy = AtReveal | AfterDelay

  /** Everything the page holds. `pendingWins` are the numbers of the win
      timers that have not fired yet, oldest first. */
  datatype Page = Page(
    storage: Storage,
    game: GameState,
    cards: seq<Card>,
    registrationShown: bool,
    notice: Option<Notice>,
    pendingWins: seq<int>)

  /** What a new game takes from outside: the `Math.random()` draws, one per
      card, and the overlay size in pixels that the layout gives each card. */
  datatype Deal = Deal(draws: seq<real>, surfacePixels: nat)

  predicate ValidDeal(deal: Deal) {
    && |deal.draws| >= TOTAL_CARDS
    && forall k | 0 <= k < |deal.draws| :: RandomPick.IsDraw(deal.draws[k])
  }

  /** The three ways a visit can start. */
  datatype Entry = ShowRegistration | ShowOutcome(prize: Option<int>) | StartNewGame

  /** The entry decision: no user means registration; a user with a prize
      means the prize again; a user without one means a new game. */
  function EntryPoint(st: Storage): (e: Entry)
    ensures e == ShowRegistration <==> !Stored(st.user)
    ensures e.ShowOutcome? <==> Stored(st.user) && Stored(st.prize)
    ensures e.ShowOutcome? ==> e.prize == Decimal.ParseInt(st.prize.value)
    ensures e == StartNewGame <==> Stored(st.user) && !Stored(st.prize)
  {
    if !Stored(st.user) then ShowRegistration
    else if Stored(st.prize) then ShowOutcome(Decimal.ParseInt(st.prize.value))
    else StartNewGame
  }

  /** The page as the script starts it, before anything runs. */
  function FreshPage(st: Storage): (q: Page)
    ensures q.storage == st && q.pendingWins == [] && q.cards == []
    ensures q.registrationShown && q.notice == None
    ensures q.game.scratchedCards == 0 && q.game.isGameActive && q.game.userName == None
  {
    Page(st, GameState(0, true, None), [], true, None, [])
  }

  /** Opening the prize modal. Its text names the player, so with no player
      name the script throws before the modal becomes visible. */
  function Announce(p: Page, n: Notice): (q: Page)
    ensures q.storage == p.storage && q.game == p.game && q.cards == p.cards
    ensures q.pendingWins == p.pendingWins && q.registrationShown == p.registrationShown
    ensures p.game.userName.Some? ==> q.notice == Some(n)
    ensures p.game.userName.None? ==> q == p
  {
    if p.game.userName.Some? then p.(notice := Some(n)) else p
  }

  /** `showPreviousPrize(parseInt(savedPrize))`. */
  function ShowPreviousPrize(p: Page): (q: Page)
    requires Stored(p.storage.prize)
    ensures q.storage == p.storage && q.game == p.game && q.cards == p.cards
    ensures q.pendingWins == p.pendingWins && q.registrationShown == p.registrationShown
    ensures p.game.userName.Some? ==> q.notice == Some(PreviousPrize(Decimal.ParseInt(p.storage.prize.value)))
    ensures forall n :: p.storage.prize.value == Decimal.IntToString(n) && p.game.userName.Some? ==>
      q.notice == Some(PreviousPrize(Some(n)))
  {
    Decimal.ParseIntInvertsIntToString();
    Announce(p, PreviousPrize(Decimal.ParseInt(p.storage.prize.value)))
  }

  /** `showWinModal(number)`: persist the prize as `number.toString()`, then
      open the modal. */
  function ShowWinModal(p: Page, number: int): (q: Page)
    ensures q.storage == p.storage.(prize := Some(Decimal.IntToString(number)))
    ensures Stored(q.storage.prize)
    ensures Decimal.ParseInt(q.storage.prize.value) == Some(number)
    ensures q.game == p.game && q.cards == p.cards && q.pendingWins == p.pendingWins
  {
    Decimal.ParseIntOfIntToString(number);
    Announce(p.(storage := p.storage.(prize := Some(Decimal.IntToString(number)))), Congratulations(number))
  }

  /** The number one draw selects: `WINNING_NUMBERS[floor(r * 9)]`. */
  function DrawNumber(r: real): (v: int)
    requires RandomPick.IsDraw(r)
    ensures v in WINNING_NUMBERS
  {
    WINNING_NUMBERS[RandomPick.Pick(r, |WINNING_NUMBERS|)]
  }

  /** Every winning number can be dealt: draw k/9 deals the k-th one. */
  lemma DrawReachesEveryNumber(k: nat)
    requires k < |WINNING_NUMBERS|
    ensures RandomPick.IsDraw(k as real / |WINNING_NUMBERS| as real)
    ensures DrawNumber(k as real / |WINNING_NUMBERS| as real) == WINNING_NUMBERS[k]
  {
    RandomPick.PickCovers(k, |WINNING_NUMBERS|);
  }

  /** The numbers of a new game, card by card. */
  function RandomNumbers(draws: seq<real>): (ns: seq<int>)
    requires |draws| >= TOTAL_CARDS
    requires forall k | 0 <= k < |draws| :: RandomPick.IsDraw(draws[k])
    ensures |ns| == TOTAL_CARDS
    ensures forall k | 0 <= k < |ns| :: ns[k] in WINNING_NUMBERS
  {
    seq(TOTAL_CARDS, k requires 0 <= k < TOTAL_CARDS => DrawNumber(draws[k]))
  }

  /** `generateRandomNumbers`: one draw per card, pushed in order. */
  method GenerateRandomNumbers(draws: seq<real>) returns (numbers: seq<int>)
    requires |draws| >= TOTAL_CARDS
    requires forall k | 0 <= k < |draws| :: RandomPick.IsDraw(draws[k])
    ensures |numbers| == TOTAL_CARDS
    ensures forall k | 0 <= k < |numbers| :: numbers[k] in WINNING_NUMBERS
    ensures numbers == RandomNumbers(draws)
  {
    numbers := [];
    var i := 0;
    while i < TOTAL_CARDS
      invariant 0 <= i <= TOTAL_CARDS
      invariant numbers == RandomNumbers(draws)[..i]
    {
      var randomIndex := RandomPick.Pick(draws[i], |WINNING_NUMBERS|);
      numbers := numbers + [WINNING_NUMBERS[randomIndex]];
      i := i + 1;
    }
  }

  /** Fresh, fully covered, unscratched cards for the given numbers. */
  function NewCards(numbers: seq<int>, pixels: nat): (cards: seq<Card>)
    ensures |cards| == |numbers|
    ensures forall k | 0 <= k < |cards| ::
      cards[k].number == numbers[k] && !cards[k].scratched
      && Canvas.WellFormed(cards[k].surface) && Canvas.Pixels(cards[k].surface) == pixels
      && Canvas.Transparent(cards[k].surface) == 0
  {
    var surface := Canvas.Covered(pixels);
    seq(|numbers|, k requires 0 <= k < |numbers| => Card(numbers[k], surface, false))
  }

  /** `initGame`: with a stored prize only the earlier prize is shown;
      otherwise the grid is replaced by `TOTAL_CARDS` new cards and the game
      is active with no scratched card. */
  function InitGame(p: Page, deal: Deal): (q: Page)
    requires ValidDeal(deal)
    ensures q.storage == p.storage && q.registrationShown == p.registrationShown
    ensures q.pendingWins == p.pendingWins && q.game.userName == p.game.userName
    ensures Stored(p.storage.prize) ==>
      q.cards == p.cards && q.game == p.game
      && (p.game.userName.Some? ==> q.notice == Some(PreviousPrize(Decimal.ParseInt(p.storage.prize.value))))
    ensures !Stored(p.storage.prize) ==>
      && q.notice == p.notice
      && q.game.scratchedCards == 0 && q.game.isGameActive
      && |q.cards| == TOTAL_CARDS
      && forall k | 0 <= k < |q.cards| ::
        q.cards[k].number in WINNING_NUMBERS && !q.cards[k].scratched
        && Canvas.WellFormed(q.cards[k].surface) && Canvas.Transparent(q.cards[k].surface) == 0
  {
    if Stored(p.storage.prize) then ShowPreviousPrize(p)
    else
      p.(game := p.game.(scratchedCards := 0, isGameActive := true),
         cards := NewCards(RandomNumbers(deal.draws), deal.surfacePixels))
  }

  /** `checkExistingUser`, run on a page: a stored user hides the
      registration and either replays the prize or starts a game. */
  function CheckExistingUser(p: Page, deal: Deal): (q: Page)
    requires ValidDeal(deal)
    ensures q.storage == p.storage && q.pendingWins == p.pendingWins
    ensures !Stored(p.storage.user) ==> q == p
    ensures Stored(p.storage.user) ==>
      !q.registrationShown && q.game.userName == Some(p.storage.user.value)
    ensures Stored(p.storage.user) && Stored(p.storage.prize) ==>
      && q.cards == p.cards
      && q.notice == Some(PreviousPrize(Decimal.ParseInt(p.storage.prize.value)))
    ensures Stored(p.storage.user) && !Stored(p.storage.prize) ==>
      && q.notice == p.notice
      && q.game.isGameActive && q.game.scratchedCards == 0 && |q.cards| == TOTAL_CARDS
  {
    if Stored(p.storage.user) then
      var q := p.(game := p.game.(userName := Some(p.storage.user.value)), registrationShown := false);
      if Stored(q.storage.prize) then ShowPreviousPrize(q)
      else InitGame(q, deal)
    else p
  }

  /** A page load: the script starts afresh over the persisted storage and
      runs `checkExistingUser`. The result follows the entry decision. */
  function LoadPage(st: Storage, deal: Deal): (q: Page)
    requires ValidDeal(deal)
    ensures q.storage == st && q.pendingWins == []
    ensures EntryPoint(st) == ShowRegistration ==>
      q.registrationShown && q.cards == [] && q.notice == None && q.game.userName == None
    ensures EntryPoint(st).ShowOutcome? ==>
      && !q.registrationShown && q.cards == [] && q.game.userName == st.user
      && q.notice == Some(PreviousPrize(EntryPoint(st).prize))
    ensures EntryPoint(st) == StartNewGame ==>
      && !q.registrationShown && q.notice == None && q.game.userName == st.user
      && q.game.isGameActive && q.game.scratchedCards == 0 && |q.cards| == TOTAL_CARDS
  {
    CheckExistingUser(FreshPage(st), deal)
  }

  /** The registration form's submit handler. A name that is blank after
      trimming changes nothing; otherwise the trimmed name is stored, the
      registration closes and `initGame` runs. */
  function SubmitRegistration(p: Page, field: string, deal: Deal): (q: Page)
    requires ValidDeal(deal)
    ensures JsText.AllWhiteSpace(field) ==> q == p
    ensures !JsText.AllWhiteSpace(field) ==>
      && q.storage == p.storage.(user := Some(JsText.Trim(field)))
      && Stored(q.storage.user)
      && q.game.userName == Some(JsText.Trim(field))
      && !q.registrationShown
      && (!Stored(p.storage.prize) ==> q.game.isGameActive && |q.cards| == TOTAL_CARDS)
    ensures !JsText.AllWhiteSpace(field) && !Stored(p.storage.prize) ==> EntryPoint(q.storage) == StartNewGame
    ensures JsText.AllWhiteSpace(field) && !Stored(p.storage.user) ==> EntryPoint(q.storage) == ShowRegistration
  {
    var userName := JsText.Trim(field);
    JsText.TrimEmptyIff(field);
    if userName != [] then
      InitGame(p.(storage := p.storage.(user := Some(userName)),
                  game := p.game.(userName := Some(userName)),
                  registrationShown := false), deal)
    else p
  }

  /** The reset button: the stored prize again, or `initGame`. Since
      `initGame` makes the same prize check itself, the click is exactly
      `initGame`. */
  function ResetButton(p: Page, deal: Deal): (q: Page)
    requires ValidDeal(deal)
    ensures q == InitGame(p, deal)
  {
    if Stored(p.storage.prize) then ShowPreviousPrize(p)
    else InitGame(p, deal)
  }

  /** `checkScratchProgress` for card `i`: a card not yet scratched whose
      overlay is more than half transparent becomes scratched; the first
      such card ends the game and wins its number. */
  function CheckScratchProgress(policy: WritePolicy, p: Page, i: nat): (q: Page)
    requires i < |p.cards|
    ensures |q.cards| == |p.cards| && forall j | 0 <= j < |p.cards| && j != i :: q.cards[j] == p.cards[j]
    ensures q.storage.user == p.storage.user && q.game.userName == p.game.userName
    ensures q.registrationShown == p.registrationShown
    ensures !(Canvas.ScratchedEnough(p.cards[i].surface) && !p.cards[i].scratched) ==> q == p
    ensures Canvas.ScratchedEnough(p.cards[i].surface) && !p.cards[i].scratched ==>
      && q.cards[i] == p.cards[i].(scratched := true)
      && q.game.scratchedCards == p.game.scratchedCards + 1
    ensures Canvas.ScratchedEnough(p.cards[i].surface) && !p.cards[i].scratched && p.game.scratchedCards != 0 ==>
      q.storage == p.storage && q.pendingWins == p.pendingWins && q.game.isGameActive == p.game.isGameActive
    ensures Canvas.ScratchedEnough(p.cards[i].surface) && !p.cards[i].scratched && p.game.scratchedCards == 0 ==>
      && !q.game.isGameActive
      && (policy == AtReveal ==>
            q.storage.prize == Some(Decimal.IntToString(p.cards[i].number)) && q.pendingWins == p.pendingWins)
      && (policy == AfterDelay ==>
            q.storage == p.storage && q.pendingWins == p.pendingWins + [p.cards[i].number])
  {
    var card := p.cards[i];
    if Canvas.ScratchedEnough(card.surface) && !card.scratched then
      var q := p.(cards := p.cards[i := card.(scratched := true)],
                  game := p.game.(scratchedCards := p.game.scratchedCards + 1));
      if q.game.scratchedCards == 1 then
        var r := q.(game := q.game.(isGameActive := false));
        match policy
        case AtReveal => ShowWinModal(r, card.number)
        case AfterDelay => r.(pendingWins := r.pendingWins + [card.number])
      else q
    else p
  }

  /** One scratch stroke on card `i` erasing the pixels `erased`. Ignored
      when no such card is on the grid, when the game is over and when the
      card is already scratched; otherwise the overlay is erased and the
      progress checked. */
  function Scratch(policy: WritePolicy, p: Page, i: int, erased: set<nat>): (q: Page)
    ensures !p.game.isGameActive ==> q == p
    ensures 0 <= i < |p.cards| && p.cards[i].scratched ==> q == p
    ensures |q.cards| == |p.cards| && q.game.userName == p.game.userName
    ensures q.registrationShown == p.registrationShown && q.storage.user == p.storage.user
    ensures forall j | 0 <= j < |p.cards| && j != i :: q.cards[j] == p.cards[j]
    ensures 0 <= i < |p.cards| && p.game.isGameActive && !p.cards[i].scratched
            && |p.cards[i].surface| % 4 == 0 ==>
      && q.cards[i].surface == Canvas.Erase(p.cards[i].surface, erased)
      && (q.cards[i].scratched <==> 2 * Canvas.Transparent(q.cards[i].surface) > Canvas.Pixels(q.cards[i].surface))
  {
    if !(0 <= i < |p.cards|) then p
    else if !p.game.isGameActive then p
    else if p.cards[i].scratched then p
    else
      var card := p.cards[i].(surface := Canvas.Erase(p.cards[i].surface, erased));
      Canvas.ScratchedEnoughIff(card.surface);
      CheckScratchProgress(policy, p.(cards := p.cards[i := card]), i)
  }

  /** The oldest pending win timer fires: `showWinModal` for its number. */
  function WinTimer(p: Page): (q: Page)
    ensures p.pendingWins == [] ==> q == p
    ensures p.pendingWins != [] ==>
      q.storage.prize == Some(Decimal.IntToString(p.pendingWins[0])) && q.pendingWins == p.pendingWins[1..]
  {
    if p.pendingWins == [] then p
    else ShowWinModal(p.(pendingWins := p.pendingWins[1..]), p.pendingWins[0])
  }

  /** The timer catches up: a reveal under the 500 ms delay followed by its
      timer is the same page as the write at reveal, when no other win was
      pending. */
  lemma TimerCompletesDelayedWin(p: Page, i: nat)
    requires i < |p.cards| && p.pendingWins == []
    ensures WinTimer(CheckScratchProgress(AfterDelay, p, i)) == CheckScratchProgress(AtReveal, p, i)
  {
  }
}

=== FILE: js_text.dfy ===
/**
 * The part of JavaScript's string semantics the game relies on: the white
 * space set of ECMAScript (WhiteSpace and LineTerminator, which is also
 * StrWhiteSpaceChar, the set `parseInt` skips) and `String.prototype.trim`.
 */
module JsText {

  /** WhiteSpace or LineTerminator: TAB, LF, VT, FF, CR, the BOM and every
      code point of Unicode category Zs, plus LINE and PARAGRAPH SEPARATOR. */
  predicate IsWhiteSpace(c: char) {
    || c == '\t' || c == '\n' || c == '\U{000B}' || c == '\U{000C}' || c == '\r'
    || c == ' ' || c == '\U{00A0}' || c == '\U{1680}'
    || ('\U{2000}' <= c <= '\U{200A}')
    || c == '\U{2028}' || c == '\U{2029}' || c == '\U{202F}' || c == '\U{205F}'
    || c == '\U{3000}' || c == '\U{FEFF}'
  }

  predicate AllWhiteSpace(s: string) {
    forall k | 0 <= k < |s| :: IsWhiteSpace(s[k])
  }

  /** Number of white space characters at the start of `s`. */
  function LeadingSpace(s: string): (n: nat)
    ensures n <= |s|
    ensures AllWhiteSpace(s[..n])
    ensures n < |s| ==> !IsWhiteSpace(s[n])
  {
    if |s| == 0 || !IsWhiteSpace(s[0]) then 0
    else
      var n := 1 + LeadingSpace(s[1..]);
      assert s[..n] == [s[0]] + s[1..][..n - 1];
      n
  }

  /** Number of white space characters at the end of `s`. */
  function TrailingSpace(s: string): (n: nat)
    ensures n <= |s|
    ensures AllWhiteSpace(s[|s| - n..])
    ensures n < |s| ==> !IsWhiteSpace(s[|s| - n - 1])
  {
    if |s| == 0 || !IsWhiteSpace(s[|s| - 1]) then 0
    else
      var n := 1 + TrailingSpace(s[..|s| - 1]);
      assert s[|s| - n..] == s[..|s| - 1][|s| - n..] + [s[|s| - 1]];
      n
  }

  /** `String.prototype.trim`: `s` without its leading and trailing white
      space. The result is the slice of `s` that starts after the leading
      white space; everything after it is white space; it neither starts nor
      ends with white space. */
  function Trim(s: string): (r: string)
    ensures |r| <= |s| - LeadingSpace(s)
    ensures r == s[LeadingSpace(s)..LeadingSpace(s) + |r|]
    ensures AllWhiteSpace(s[LeadingSpace(s) + |r|..])
    ensures r != [] ==> !IsWhiteSpace(r[0]) && !IsWhiteSpace(r[|r| - 1])
  {
    var rest := s[LeadingSpace(s)..];
    rest[..|rest| - TrailingSpace(rest)]
  }

  /** A string trims to the empty string exactly when it is all white space. */
  lemma TrimEmptyIff(s: string)
    ensures Trim(s) == [] <==> AllWhiteSpace(s)
  {
    var a := LeadingSpace(s);
    if Trim(s) == [] {
      assert a == |s|;
      assert s[..a] == s;
    } else {
      assert !IsWhiteSpace(s[a]);
    }
  }

  /** Trimming twice changes nothing more. */
  lemma TrimIdempotent(s: string)
    ensures Trim(Trim(s)) == Trim(s)
  {
    var r := Trim(s);
    if r != [] {
      assert LeadingSpace(r) == 0;
      var n := TrailingSpace(r);
      assert n == 0;
      assert r[0..0 + |Trim(r)|] == r;
    }
  }
}

=== FILE: progress.dfy ===
/**
 * The scratch progress indicator: a percentage that only ever rises, the
 * fill width that follows it, one of three encouragement texts, and the
 * pick of a random motivational message.
 */
module Progress {
  import RandomPick

  /** The three texts under the bar, in order: "Raspá para descubrir tu
      premio", "¡Sigue raspando! 💫", "¡Casi lo tienes! ✨". */
  datatype Band = Start | KeepGoing | Almost

  function BandText(b: Band): string {
    match b
    case Start => "Raspá para descubrir tu premio"
    case KeepGoing => "¡Sigue raspando! 💫"
    case Almost => "¡Casi lo tienes! ✨"
  }

  /** `currentProgress`, the fill width in percent, and the text shown. */
  datatype Indicator = Indicator(currentProgress: real, fillWidth: real, band: Band)

  /** The text for a percentage: below 30, below 50, or 50 and above. */
  function MessageBand(percentage: real): (b: Band)
    ensures b == Start <==> percentage < 30.0
    ensures b == KeepGoing <==> 30.0 <= percentage < 50.0
    ensures b == Almost <==> percentage >= 50.0
  {
    if percentage < 30.0 then Start
    else if percentage < 50.0 then KeepGoing
    else Almost
  }

  /** The band never moves back as the percentage grows. */
  lemma MessageBandMonotone(a: real, b: real)
    requires a <= b
    ensures MessageBand(a) == Almost ==> MessageBand(b) == Almost
    ensures MessageBand(a) == KeepGoing ==> MessageBand(b) != Start
  {
  }

  /** `updateProgress(percentage)`: accepted only when the fill element
      exists and the percentage is above the current one; an accepted update
      sets the value, the width and the text together. */
  function UpdateProgress(u: Indicator, fillPresent: bool, percentage: real): (v: Indicator)
    ensures v.currentProgress >= u.currentProgress
    ensures v != u <==> fillPresent && percentage > u.currentProgress
    ensures v != u ==>
      v.currentProgress == percentage && v.fillWidth == percentage && v.band == MessageBand(percentage)
  {
    if fillPresent && percentage > u.currentProgress then
      Indicator(percentage, percentage, MessageBand(percentage))
    else u
  }

  /** Repeating an update changes nothing more. */
  lemma UpdateIdempotent(u: Indicator, fillPresent: bool, percentage: real)
    ensures UpdateProgress(UpdateProgress(u, fillPresent, percentage), fillPresent, percentage)
         == UpdateProgress(u, fillPresent, percentage)
  {
  }

  /** A sequence of updates, in order. */
  function UpdateAll(u: Indicator, fillPresent: bool, ps: seq<real>): Indicator
    decreases |ps|
  {
    if ps == [] then u else UpdateAll(UpdateProgress(u, fillPresent, ps[0]), fillPresent, ps[1..])
  }

  /** After any sequence of updates the value is the largest of the starting
      value and every percentage offered: at least each of them, and equal to
      one of them. Without the fill element nothing changes. */
  lemma {:induction false} UpdateAllIsMaximum(u: Indicator, fillPresent: bool, ps: seq<real>)
    ensures !fillPresent ==> UpdateAll(u, fillPresent, ps) == u
    ensures fillPresent ==>
      var v := UpdateAll(u, fillPresent, ps);
      && v.currentProgress >= u.currentProgress
      && (forall k | 0 <= k < |ps| :: v.currentProgress >= ps[k])
      && (v.currentProgress == u.currentProgress || exists k | 0 <= k < |ps| :: v.currentProgress == ps[k])
    decreases |ps|
  {
    if ps != [] {
      var w := UpdateProgress(u, fillPresent, ps[0]);
      UpdateAllIsMaximum(w, fillPresent, ps[1..]);
      if fillPresent {
        var v := UpdateAll(w, fillPresent, ps[1..]);
        forall k | 0 <= k < |ps| ensures v.currentProgress >= ps[k] {
          if k > 0 { assert ps[k] == ps[1..][k - 1]; }
        }
        if v.currentProgress != w.currentProgress {
          var k :| 0 <= k < |ps[1..]| && v.currentProgress == ps[1..][k];
          assert v.currentProgress == ps[k + 1];
        } else if w != u {
          assert v.currentProgress == ps[0];
        }
      }
    }
  }

  /** Which of `progressIndicator`, `progressFill` and `progressText` the
      page holds. */
  datatype Elements = Elements(indicator: bool, fill: bool, text: bool)

  /** How `initializeUIElements` ends: normally, or with the TypeError that
      touching a missing fill or text element raises, with the state as it
      was at that point. */
  datatype InitOutcome = Completed(after: Indicator) | Threw(after: Indicator)

  /** `initializeUIElements`: with the indicator present the width and the
      text are reset, in that order, and a missing fill or text element
      throws before the value is reset; otherwise the value ends at 0. */
  function InitializeUi(u: Indicator, els: Elements): (r: InitOutcome)
    ensures r.Threw? <==> els.indicator && !(els.fill && els.text)
    ensures r.Completed? ==> r.after.currentProgress == 0.0
    ensures r.Threw? ==> r.after.currentProgress == u.currentProgress && r.after.band == u.band
    ensures els.indicator && !els.fill ==> r.after == u
    ensures els.indicator && els.fill ==> r.after.fillWidth == 0.0
    ensures r.Completed? && els.indicator ==> BandText(r.after.band) == "Raspá para descubrir tu premio"
    ensures !els.indicator ==> r.after.fillWidth == u.fillWidth && r.after.band == u.band
  {
    if !els.indicator then Completed(u.(currentProgress := 0.0))
    else if !els.fill then Threw(u)
    else if !els.text then Threw(u.(fillWidth := 0.0))
    else Completed(Indicator(0.0, 0.0, Start))
  }

  /** After a reset that completes, the first positive percentage is
      accepted again; after one that throws, the old value still blocks
      every percentage not above it. */
  lemma ResetReaccepts(u: Indicator, els: Elements, percentage: real)
    requires percentage > 0.0
    ensures InitializeUi(u, els).Completed? ==>
      UpdateProgress(InitializeUi(u, els).after, true, percentage).currentProgress == percentage
    ensures InitializeUi(u, els).Threw? && percentage <= u.currentProgress ==>
      UpdateProgress(InitializeUi(u, els).after, true, percentage).currentProgress == u.currentProgress
  {
  }

  const MOTIVATIONAL_MESSAGES: seq<string> := [
    "¡Qué suerte! 🍀",
    "¡Increíble! ✨",
    "¡Sos un ganador! 🏆",
    "¡Fantástico! 🎉",
    "¡Impresionante! 💫",
    "¡Maravilloso! 🌟",
    "¡Espectacular! 🎊"
  ]

  /** `getRandomMessage` for one draw of `Math.random()`. */
  function RandomMessage(r: real): (m: string)
    requires RandomPick.IsDraw(r)
    ensures m in MOTIVATIONAL_MESSAGES
  {
    MOTIVATIONAL_MESSAGES[RandomPick.Pick(r, |MOTIVATIONAL_MESSAGES|)]
  }

  /** Every message can come up: the draw k/7 gives the k-th. */
  lemma RandomMessageCovers(k: nat)
    requires k < |MOTIVATIONAL_MESSAGES|
    ensures RandomPick.IsDraw(k as real / |MOTIVATIONAL_MESSAGES| as real)
    ensures RandomMessage(k as real / |MOTIVATIONAL_MESSAGES| as real) == MOTIVATIONAL_MESSAGES[k]
  {
    RandomPick.PickCovers(k, |MOTIVATIONAL_MESSAGES|);
  }
}

=== FILE: random_pick.dfy ===
/**
 * `Math.floor(Math.random() * n)`: turning one draw of `Math.random()`,
 * a real number in [0, 1), into an index of an `n`-element array.
 */
module RandomPick {

  predicate IsDraw(r: real) {
    0.0 <= r < 1.0
  }

  /** The index picked by draw `r` among `n` entries: the unique `k` with
      `k <= r * n < k + 1`, always a valid index. */
  function Pick(r: real, n: nat): (k: nat)
    requires IsDraw(r) && n > 0
    ensures k < n
    ensures k as real <= r * n as real < (k + 1) as real
  {
    var x := r * n as real;
    ScaledDrawBelow(r, n as real);
    x.Floor
  }

  lemma ScaledDrawBelow(r: real, n: real)
    requires 0.0 <= r < 1.0 && n > 0.0
    ensures 0.0 <= r * n < n
  {
    assert n - r * n == (1.0 - r) * n;
  }

  /** Every index is reachable: the draw `k / n` picks index `k`. */
  lemma PickCovers(k: nat, n: nat)
    requires k < n
    ensures IsDraw(k as real / n as real)
    ensures Pick(k as real / n as real, n) == k
  {
    var r := k as real / n as real;
    assert r * n as real == k as real;
  }

  /** A draw picks `k` exactly when it lies in [k/n, (k+1)/n): every index
      owns a slice of [0, 1) of width 1/n. */
  lemma PickIff(r: real, n: nat, k: nat)
    requires IsDraw(r) && n > 0
    ensures Pick(r, n) == k <==> k as real / n as real <= r < (k + 1) as real / n as real
  {
    var N := n as real;
    ScaleBelow(k as real, r, N);
    ScaleAbove((k + 1) as real, r, N);
  }

  lemma ScaleBelow(a: real, r: real, n: real)
    requires n > 0.0
    ensures a <= r * n <==> a / n <= r
  {
    assert (a / n) * n == a;
  }

  lemma ScaleAbove(b: real, r: real, n: real)
    requires n > 0.0
    ensures r * n < b <==> r < b / n
  {
    assert (b / n) * n == b;
  }
}

=== FILE: session.dfy ===
/**
 * The page as a state machine over its input events, and what holds of
 * every run: at most one card is ever revealed, a stored prize is final,
 * and a win is what the next visit shows.
 */
module Session {
  import opened Wrappers
  import JsText
  import Decimal
  import Canvas
  import RandomPick
  import opened Game

  /** Input the page reacts to: a (re)load of the page, a submit of the
      registration form, a scratch stroke on a card, a click on the reset
      button, and the firing of the oldest pending win timer. */
  datatype Event =
    | Load(deal: Deal)
    | Submit(field: string, deal: Deal)
    | Rub(card: int, erased: set<nat>)
    | Reset(deal: Deal)
    | TimerFires

  predicate ValidEvent(e: Event) {
    match e
    case Load(deal) => ValidDeal(deal)
    case Submit(_, deal) => ValidDeal(deal)
    case Reset(deal) => ValidDeal(deal)
    case _ => true
  }

  predicate ValidEvents(evs: seq<Event>) {
    forall k | 0 <= k < |evs| :: ValidEvent(evs[k])
  }

  /** The handler each event runs. A reload starts a new script over the
      same storage, so timers still pending in the old page are lost. */
  function Step(policy: WritePolicy, p: Page, e: Event): (q: Page)
    requires ValidEvent(e)
    ensures e.Load? ==> q.storage == p.storage && q.pendingWins == []
    ensures !e.Submit? ==> q.storage.user == p.storage.user
    ensures e.Reset? ==> q.storage == p.storage && q.pendingWins == p.pendingWins
    ensures e.Rub? ==> |q.cards| == |p.cards| && q.registrationShown == p.registrationShown
    ensures e.TimerFires? ==> q.cards == p.cards && q.game == p.game
    ensures e.TimerFires? && p.pendingWins == [] ==> q == p
  {
    match e
    case Load(deal) => LoadPage(p.storage, deal)
    case Submit(field, deal) => SubmitRegistration(p, field, deal)
    case Rub(i, erased) => Scratch(policy, p, i, erased)
    case Reset(deal) => ResetButton(p, deal)
    case TimerFires => WinTimer(p)
  }

  function Run(policy: WritePolicy, p: Page, evs: seq<Event>): Page
    requires ValidEvents(evs)
    decreases |evs|
  {
    if evs == [] then p else Run(policy, Step(policy, p, evs[0]), evs[1..])
  }

  /** A step wins when it raises the count of scratched cards. */
  predicate Won(p: Page, q: Page) {
    q.game.scratchedCards > p.game.scratchedCards
  }

  /** Number of winning steps in a run. */
  function Wins(policy: WritePolicy, p: Page, evs: seq<Event>): nat
    requires ValidEvents(evs)
    decreases |evs|
  {
    if evs == [] then 0
    else
      var q := Step(policy, p, evs[0]);
      (if Won(p, q) then 1 else 0) + Wins(policy, q, evs[1..])
  }

  /** Number of scratched cards on the grid. */
  function ScratchedCount(cards: seq<Card>): nat {
    if cards == [] then 0
    else (if cards[0].scratched then 1 else 0) + ScratchedCount(cards[1..])
  }

  /** Replacing one card changes the count by the difference of the flags. */
  lemma {:induction false} ScratchedCountUpdate(cards: seq<Card>, i: nat, c: Card)
    requires i < |cards|
    ensures ScratchedCount(cards[i := c]) + (if cards[i].scratched then 1 else 0)
         == ScratchedCount(cards) + (if c.scratched then 1 else 0)
  {
    if i > 0 {
      assert cards[i := c][1..] == cards[1..][i - 1 := c];
      ScratchedCountUpdate(cards[1..], i - 1, c);
    }
  }

  lemma {:induction false} ScratchedCountZero(cards: seq<Card>)
    ensures ScratchedCount(cards) == 0 <==> forall j | 0 <= j < |cards| :: !cards[j].scratched
  {
    if cards != [] {
      ScratchedCountZero(cards[1..]);
      assert forall j | 1 <= j < |cards| :: cards[j] == cards[1..][j - 1];
    }
  }

  lemma {:induction false} ScratchedCountTwo(cards: seq<Card>, j: nat, k: nat)
    requires j < k < |cards| && cards[j].scratched && cards[k].scratched
    ensures ScratchedCount(cards) >= 2
  {
    if j == 0 {
      ScratchedCountZero(cards[1..]);
      assert cards[1..][k - 1] == cards[k];
    } else {
      ScratchedCountTwo(cards[1..], j - 1, k - 1);
    }
  }

  /** What every reachable page satisfies when the prize is written at the
      reveal: the counter matches the grid and is at most one, the game is
      active exactly while no card is scratched, a scratched card's number is
      the stored prize, and with a prize stored no playable game exists. */
  predicate Inv(p: Page) {
    && ScratchedCount(p.cards) == p.game.scratchedCards
    && p.game.scratchedCards <= 1
    && (p.game.isGameActive <==> p.game.scratchedCards == 0)
    && (forall j | 0 <= j < |p.cards| && p.cards[j].scratched ::
          p.storage.prize == Some(Decimal.IntToString(p.cards[j].number)))
    && (Stored(p.storage.prize) ==> !p.game.isGameActive || p.cards == [])
    && p.pendingWins == []
  }

  lemma FreshPageInv(st: Storage)
    ensures Inv(FreshPage(st))
  {
  }

  lemma NewGameInv(p: Page, deal: Deal)
    requires Inv(p) && ValidDeal(deal)
    ensures Inv(InitGame(p, deal))
  {
    var q := InitGame(p, deal);
    if !Stored(p.storage.prize) {
      ScratchedCountZero(q.cards);
    }
  }

  lemma ScratchInv(p: Page, i: int, erased: set<nat>)
    requires Inv(p)
    ensures Inv(Scratch(AtReveal, p, i, erased))
  {
    if 0 <= i < |p.cards| && p.game.isGameActive && !p.cards[i].scratched {
      ScratchedCountZero(p.cards);
      var card := p.cards[i].(surface := Canvas.Erase(p.cards[i].surface, erased));
      var cards := p.cards[i := card];
      ScratchedCountUpdate(p.cards, i, card);
      if Canvas.ScratchedEnough(card.surface) {
        ScratchedCountUpdate(cards, i, card.(scratched := true));
        var q := Scratch(AtReveal, p, i, erased);
        assert q.cards == cards[i := card.(scratched := true)];
        forall j | 0 <= j < |q.cards| && q.cards[j].scratched
          ensures q.storage.prize == Some(Decimal.IntToString(q.cards[j].number))
        {
          assert j == i;
        }
      }
    }
  }

  /** Every step keeps the invariant. */
  lemma StepInv(p: Page, e: Event)
    requires Inv(p) && ValidEvent(e)
    ensures Inv(Step(AtReveal, p, e))
  {
    match e
    case Load(deal) =>
      var f := FreshPage(p.storage);
      var g := f.(game := f.game.(userName := Some(ValueOr(p.storage.user, ""))), registrationShown := false);
      if Stored(p.storage.user) && !Stored(p.storage.prize) {
        NewGameInv(g, deal);
      }
    case Submit(field, deal) =>
      var userName := JsText.Trim(field);
      var g := p.(storage := p.storage.(user := Some(userName)),
                  game := p.game.(userName := Some(userName)),
                  registrationShown := false);
      NewGameInv(g, deal);
    case Rub(i, erased) => ScratchInv(p, i, erased);
    case Reset(deal) => NewGameInv(p, deal);
    case TimerFires =>
  }

  /** A winning step starts from a page with no stored prize and ends with
      one. */
  lemma WinStoresPrize(p: Page, e: Event)
    requires Inv(p) && ValidEvent(e) && Won(p, Step(AtReveal, p, e))
    ensures !Stored(p.storage.prize)
    ensures Stored(Step(AtReveal, p, e).storage.prize)
  {
    ScratchedCountZero(p.cards);
  }

  /** Once stored, the prize never changes. */
  lemma StoredPrizeIsFinal(p: Page, e: Event)
    requires Inv(p) && ValidEvent(e) && Stored(p.storage.prize)
    ensures Step(AtReveal, p, e).storage.prize == p.storage.prize
  {
  }

  /** One winner per page: over any run from a page satisfying the
      invariant, at most one step wins, and none once a prize is stored. */
  lemma {:induction false} AtMostOneWin(p: Page, evs: seq<Event>)
    requires Inv(p) && ValidEvents(evs)
    ensures Wins(AtReveal, p, evs) <= (if Stored(p.storage.prize) then 0 else 1)
    decreases |evs|
  {
    if evs != [] {
      var q := Step(AtReveal, p, evs[0]);
      StepInv(p, evs[0]);
      assert ValidEvents(evs[1..]) by {
        forall k | 0 <= k < |evs[1..]| ensures ValidEvent(evs[1..][k]) {
          assert evs[1..][k] == evs[k + 1];
        }
      }
      AtMostOneWin(q, evs[1..]);
      if Won(p, q) {
        WinStoresPrize(p, evs[0]);
      } else if Stored(p.storage.prize) {
        StoredPrizeIsFinal(p, evs[0]);
      }
    }
  }

  /** From the moment the script starts in one page, whatever the stored
      keys and the input, at most one card is ever won on that page. */
  lemma OneWinPerPage(st: Storage, evs: seq<Event>)
    requires ValidEvents(evs)
    ensures Wins(AtReveal, FreshPage(st), evs) <= 1
    ensures Stored(st.prize) ==> Wins(AtReveal, FreshPage(st), evs) == 0
  {
    FreshPageInv(st);
    AtMostOneWin(FreshPage(st), evs);
  }

  /** Within one page, at most one card is marked scratched. */
  lemma AtMostOneScratched(p: Page, j: nat, k: nat)
    requires Inv(p)
    requires j < |p.cards| && k < |p.cards| && p.cards[j].scratched && p.cards[k].scratched
    ensures j == k
  {
    if j < k {
      ScratchedCountTwo(p.cards, j, k);
    } else if k < j {
      ScratchedCountTwo(p.cards, k, j);
    }
  }

  /** Every page the script reaches from its start satisfies `Inv`. */
  lemma {:induction false} RunInv(p: Page, evs: seq<Event>)
    requires Inv(p) && ValidEvents(evs)
    ensures Inv(Run(AtReveal, p, evs))
    decreases |evs|
  {
    if evs != [] {
      StepInv(p, evs[0]);
      assert ValidEvents(evs[1..]) by {
        forall k | 0 <= k < |evs[1..]| ensures ValidEvent(evs[1..][k]) {
          assert evs[1..][k] == evs[k + 1];
        }
      }
      RunInv(Step(AtReveal, p, evs[0]), evs[1..]);
    }
  }

  /** On any page reached from the start of the script, at most one card
      is marked scratched. */
  lemma ReachableAtMostOneScratched(st: Storage, evs: seq<Event>, j: nat, k: nat)
    requires ValidEvents(evs)
    requires var q := Run(AtReveal, FreshPage(st), evs);
      j < |q.cards| && k < |q.cards| && q.cards[j].scratched && q.cards[k].scratched
    ensures j == k
  {
    FreshPageInv(st);
    RunInv(FreshPage(st), evs);
    AtMostOneScratched(Run(AtReveal, FreshPage(st), evs), j, k);
  }

  /** After a winning stroke the game is over: every later stroke on any
      card is ignored. */
  lemma WinEndsGame(p: Page, i: int, erased: set<nat>)
    requires Inv(p) && Won(p, Scratch(AtReveal, p, i, erased))
    ensures !Scratch(AtReveal, p, i, erased).game.isGameActive
    ensures forall j: int, more: set<nat> ::
      Scratch(AtReveal, Scratch(AtReveal, p, i, erased), j, more) == Scratch(AtReveal, p, i, erased)
  {
  }

  /** A stroke repeated with the same erased pixels changes nothing more. */
  lemma ScratchIdempotent(policy: WritePolicy, p: Page, i: int, erased: set<nat>)
    ensures Scratch(policy, Scratch(policy, p, i, erased), i, erased) == Scratch(policy, p, i, erased)
  {
    if 0 <= i < |p.cards| && p.game.isGameActive && !p.cards[i].scratched {
      var card := p.cards[i].(surface := Canvas.Erase(p.cards[i].surface, erased));
      Canvas.EraseIdempotent(p.cards[i].surface, erased);
      var q := Scratch(policy, p, i, erased);
      if !Canvas.ScratchedEnough(card.surface) {
        assert q.cards[i].(surface := Canvas.Erase(q.cards[i].surface, erased)) == q.cards[i];
        assert q.cards[i := q.cards[i]] == q.cards;
      }
    }
  }

  /** A stroke never lowers the transparent count of any card. */
  lemma ScratchNeverHides(policy: WritePolicy, p: Page, i: int, erased: set<nat>, j: nat)
    requires j < |p.cards|
    ensures Canvas.Transparent(p.cards[j].surface)
         <= Canvas.Transparent(Scratch(policy, p, i, erased).cards[j].surface)
  {
    if j == i && 0 <= i < |p.cards| && p.game.isGameActive && !p.cards[i].scratched {
      Canvas.EraseNeverHides(p.cards[i].surface, erased);
    }
  }

  /** The won number is stored as text that reads back as the same number,
      and the next visit or reset click of the registered player replays it
      instead of dealing a new game. */
  lemma PrizeRoundTrip(p: Page, i: int, erased: set<nat>, deal: Deal)
    requires Inv(p) && ValidDeal(deal)
    requires Won(p, Scratch(AtReveal, p, i, erased))
    ensures 0 <= i < |p.cards|
    ensures Scratch(AtReveal, p, i, erased).storage.prize == Some(Decimal.IntToString(p.cards[i].number))
    ensures Stored(p.storage.user) ==>
      && EntryPoint(Scratch(AtReveal, p, i, erased).storage) == ShowOutcome(Some(p.cards[i].number))
      && LoadPage(Scratch(AtReveal, p, i, erased).storage, deal).cards == []
      && LoadPage(Scratch(AtReveal, p, i, erased).storage, deal).notice
           == Some(PreviousPrize(Some(p.cards[i].number)))
    ensures ResetButton(Scratch(AtReveal, p, i, erased), deal).cards
         == Scratch(AtReveal, p, i, erased).cards
    ensures p.game.userName.Some? ==>
      ResetButton(Scratch(AtReveal, p, i, erased), deal).notice == Some(PreviousPrize(Some(p.cards[i].number)))
  {
    Decimal.ParseIntOfIntToString(p.cards[i].number);
  }

  /** A registered player without a prize; one-pixel overlays; the first
      deal shows 1 on every card, the second 5. */
  const RACE_STORAGE := Storage(Some("Ana"), None)
  const FIRST_DEAL := Deal([0.0, 0.0, 0.0, 0.0, 0.0, 0.0, 0.0, 0.0], 1)
  const SECOND_DEAL := Deal([0.5, 0.5, 0.5, 0.5, 0.5, 0.5, 0.5, 0.5], 1)

  /** Load, reveal card 0, click reset before the win timer fires, reveal
      card 0 of the new game, let both timers fire. */
  const RACE: seq<Event> := [Load(FIRST_DEAL)] + AFTER_LOAD
  const AFTER_LOAD: seq<Event> := [Rub(0, {0})] + AFTER_FIRST_WIN
  const AFTER_FIRST_WIN: seq<Event> := [Reset(SECOND_DEAL)] + SECOND_ROUND
  const SECOND_ROUND: seq<Event> := [Rub(0, {0})] + BOTH_TIMERS
  const BOTH_TIMERS: seq<Event> := [TimerFires, TimerFires]

  /** Clearing the single pixel of a fresh one-pixel card reveals it. */
  lemma OnePixelReveal()
    ensures Canvas.ScratchedEnough(Canvas.Erase(Canvas.Covered(1), {0}))
  {
    var c := Canvas.Erase(Canvas.Covered(1), {0});
    Canvas.EraseClears(Canvas.Covered(1), {0}, 0);
    assert Canvas.Transparent(c) == 1;
    Canvas.ScratchedEnoughIff(c);
  }

  /** A game dealt from draws that are all `r` on one-pixel overlays. */
  predicate DealtOnePixel(p: Page, n: int) {
    && |p.cards| > 0 && p.cards[0] == Card(n, Canvas.Covered(1), false)
    && p.game.isGameActive && p.game.scratchedCards == 0
  }

  lemma RaceDeals(p: Page)
    requires p.storage == RACE_STORAGE
    ensures DealtOnePixel(InitGame(p, FIRST_DEAL), 1)
    ensures DealtOnePixel(InitGame(p, SECOND_DEAL), 5)
  {
    assert RandomPick.Pick(0.0, 9) == 0;
    assert RandomPick.Pick(0.5, 9) == 4;
  }

  /** Under the delayed write, revealing such a card only queues the win. */
  lemma DelayedReveal(p: Page, n: int)
    requires DealtOnePixel(p, n)
    ensures Scratch(AfterDelay, p, 0, {0}).game.scratchedCards == 1
    ensures Scratch(AfterDelay, p, 0, {0}).pendingWins == p.pendingWins + [n]
    ensures Scratch(AfterDelay, p, 0, {0}).storage == p.storage
  {
    OnePixelReveal();
  }

  lemma WinsCons(policy: WritePolicy, p: Page, e: Event, evs: seq<Event>)
    requires ValidEvent(e) && ValidEvents(evs)
    ensures ValidEvents([e] + evs)
    ensures Wins(policy, p, [e] + evs)
         == (if Won(p, Step(policy, p, e)) then 1 else 0) + Wins(policy, Step(policy, p, e), evs)
    ensures Run(policy, p, [e] + evs) == Run(policy, Step(policy, p, e), evs)
  {
    assert ([e] + evs)[1..] == evs;
  }

  /** The two timers fire: the prize is written as "1", then as "5". */
  lemma RaceTimers(p: Page)
    requires p.pendingWins == [1, 5]
    ensures Wins(AfterDelay, p, BOTH_TIMERS) == 0
    ensures Run(AfterDelay, p, BOTH_TIMERS).storage.prize == Some("5")
  {
    var q := Step(AfterDelay, p, TimerFires);
    assert q.storage.prize == Some("1") && q.pendingWins == [5];
    WinsCons(AfterDelay, p, TimerFires, [TimerFires]);
    WinsCons(AfterDelay, q, TimerFires, []);
  }

  lemma RaceSecondReveal(p: Page)
    requires DealtOnePixel(p, 5) && p.pendingWins == [1]
    ensures ValidEvents(SECOND_ROUND)
    ensures Wins(AfterDelay, p, SECOND_ROUND) == 1
    ensures Run(AfterDelay, p, SECOND_ROUND).storage.prize == Some("5")
  {
    DelayedReveal(p, 5);
    RaceTimers(Step(AfterDelay, p, Rub(0, {0})));
    WinsCons(AfterDelay, p, Rub(0, {0}), BOTH_TIMERS);
  }

  lemma RaceReset(p: Page)
    requires p.storage == RACE_STORAGE && p.pendingWins == [1] && p.game.scratchedCards == 1
    ensures ValidEvents(AFTER_FIRST_WIN)
    ensures Wins(AfterDelay, p, AFTER_FIRST_WIN) == 1
    ensures Run(AfterDelay, p, AFTER_FIRST_WIN).storage.prize == Some("5")
  {
    var q := Step(AfterDelay, p, Reset(SECOND_DEAL));
    assert q == InitGame(p, SECOND_DEAL);
    RaceDeals(p);
    RaceSecondReveal(q);
    WinsCons(AfterDelay, p, Reset(SECOND_DEAL), SECOND_ROUND);
  }

  lemma RaceFirstReveal(p: Page)
    requires DealtOnePixel(p, 1) && p.storage == RACE_STORAGE && p.pendingWins == []
    ensures ValidEvents(AFTER_LOAD)
    ensures Wins(AfterDelay, p, AFTER_LOAD) == 2
    ensures Run(AfterDelay, p, AFTER_LOAD).storage.prize == Some("5")
  {
    DelayedReveal(p, 1);
    RaceReset(Step(AfterDelay, p, Rub(0, {0})));
    WinsCons(AfterDelay, p, Rub(0, {0}), AFTER_FIRST_WIN);
  }

  /** With the prize written 500 ms after the reveal, as the page does it, a
      reset click inside that window deals a second game: the race above wins
      twice, and the stored prize ends as 5 although the first win was 1. */
  lemma DelayedWriteWinsTwice()
    ensures ValidEvents(RACE)
    ensures Wins(AfterDelay, FreshPage(RACE_STORAGE), RACE) == 2
    ensures Run(AfterDelay, FreshPage(RACE_STORAGE), RACE).storage.prize == Some("5")
  {
    var p0 := FreshPage(RACE_STORAGE);
    var named := p0.(game := p0.game.(userName := Some("Ana")), registrationShown := false);
    var p1 := Step(AfterDelay, p0, Load(FIRST_DEAL));
    assert p1 == InitGame(named, FIRST_DEAL);
    RaceDeals(named);
    RaceFirstReveal(p1);
    WinsCons(AfterDelay, p0, Load(FIRST_DEAL), AFTER_LOAD);
  }
}

=== FILE: wrappers.dfy ===
/** Optional values: a missing storage key, or a `parseInt` that yields NaN. */
module Wrappers {

  datatype Option<+T> = None | Some(value: T)

  /** The stored value of `o`, or `fallback` for a missing key. */
  function ValueOr<T>(o: Option<T>, fallback: T): T {
    if o.Some? then o.value else fallback
  }
}
